=== FILE: README.md ===
# Goal tracker: authorization and lifecycle core, in Dafny

This project models the core of a Django goal tracker. Users keep goals in
categories, categories on boards, and boards carry participant rows that give
each user the role owner, writer or reader. The model covers:

- the three destroy handlers of the detail views, which soft-delete in a cascade:
  - a board and its categories are flagged deleted and the board's goals are archived;
  - a category is flagged deleted and its goals are archived;
  - a goal is archived;
- the querysets of the list and detail views, each as a set over the store;
- the field validators of the category and goal serializers;
- board creation, which seeds the creator as owner;
- board update, which validates the submitted roles, reconciles the participant
  rows against the submitted list by deleting, updating and creating rows, and
  then sets the title.

The store (`Models.Store`) holds one finite map per table. Participant rows
are keyed by their own row id, not by (board, user). The as-written
reconciliation can give a user two rows on one board, and this keying lets the
model represent that. `Models.Valid` states referential integrity and that ids
come from the id sequences. `Models.OneRowPerUser` states the one-row-per-(board, user)
invariant. Every operation is a pure function from store to store, so each
handler is one atomic state transition.

Modules: `Results` (Option/Result), `Models` (entities, store, invariants),
`Cascade` (destroy handlers), `Visibility` (querysets), `Validation`
(serializer validators), `Reconciliation` (the participant diff), `Boards`
(board create/update).

Where the code and its evident intent disagree, the model follows the code in an
`...AsWritten` member. It also gives the intended definition and proves the
intended property about it (see "## Findings"). Board update comes in both
forms: `Boards.UpdateBoardAsWritten` runs the reconciliation as written, and
`Boards.UpdateBoard` runs the intended `Reconciliation.Reconcile`. The two
agree whenever the submitted list does not name the requester.

Behaviour of the code worth noting:
- The goal list and goal detail querysets do not restrict goals to the requester's boards.
- Category creation runs no board check. Only the category update serializer has
  `validate_board`, and on a live board that validator fails with an attribute error.
- Reconciliation does not ignore a submitted entry that names the acting owner.
- A partial board update never succeeds: the hidden `user` field takes its default
  only on a full update, so the `pop` of `user` fails with a key error.

## Model

| member | source | states |
|---|---|---|
| Cascade.DestroyBoard | goals/views.py:42-49 | Board destroy flags the board deleted and flags deleted exactly the categories whose board it is. It archives exactly the goals whose category is on the board. Every other board, category and goal, and every other field, is unchanged. No key disappears from any table. |
| Cascade.DestroyCategory | goals/views.py:89-94 | Category destroy flags that category deleted and archives exactly the goals with that category id. Other categories, boards, participants and the other goal fields are unchanged. No key disappears. |
| Cascade.DestroyGoal | goals/views.py:135-138 | Goal destroy changes only that goal's status, to archived. Its category and owner, every other goal and every other table are unchanged. |
| Cascade.DestroyBoardIdempotent | goals/views.py:42-49 | Destroying a board twice gives the same store as destroying it once. |
| Cascade.DestroyCategoryIdempotent | goals/views.py:89-94 | Destroying a category twice gives the same store as destroying it once. |
| Cascade.DestroyGoalIdempotent | goals/views.py:135-138 | Archiving a goal twice gives the same store as archiving it once. |
| Cascade.DestroyBoardSubsumesCategory | goals/views.py:46-49 | After a board destroy, destroying any category of that board changes nothing: the board cascade already did the category cascade. |
| Cascade.DestroyPreservesValid | goals/views.py:42-138 | The three destroy handlers keep every reference and id of a valid store valid, also on a store with duplicate participant rows, and keep one participant row per (board, user) when the store had it. |
| Visibility.VisibleBoards | goals/views.py:29-40 | The board filter (not deleted, requester has a participant row) equals the join it compiles to: the boards reached from the requester's own participant rows, kept when not deleted. |
| Visibility.VisibleCategories | goals/views.py:73-87 | The category filter (not deleted, created by the requester, requester has a row on its board) equals the join over participant rows: the requester's live categories whose board has one of the requester's participant rows. The board's deleted flag is not consulted. |
| Visibility.VisibleGoalsAsWritten | goals/views.py:118-133 | The goal queryset the list and detail views serve: only goals of the store, never an archived one, and everything the intended filter shows. Its requester independence, its relation to the intended filter and its behaviour under destroy are stated by Visibility.GoalFilterIgnoresRequester, Visibility.VisibleGoalsRefinesAsWritten, Visibility.GoalFilterLeaksToOutsider and Visibility.DestroyGoalHides. |
| Visibility.VisibleGoals | goals/views.py:120-122 | Intended goal filter (not archived, on a board the requester participates in) equals the join over participant rows: non-archived goals whose category's board has one of the requester's participant rows. |
| Visibility.VisibleComments | goals/views.py:158-172 | The comment filter equals the join over participant rows: comments whose goal's category's board has one of the requester's participant rows. |
| Visibility.GoalFilterIgnoresRequester | goals/views.py:120-122 | As written, the goal queryset is the same set for every requester. |
| Visibility.GoalFilterLeaksToOutsider | goals/views.py:131-133 | In a concrete store, a user with no row on a board gets a goal of that board from the as-written filter but not from the intended one. |
| Visibility.VisibleGoalsRefinesAsWritten | goals/views.py:120-122 | The intended goal filter keeps exactly those as-written goals that are on a board where the requester participates. |
| Visibility.DestroyBoardHides | goals/views.py:38-49 | After a board destroy, no requester sees the board, any category of it or any goal on it. Every other board's visibility is unchanged. |
| Visibility.DestroyCategoryHides | goals/views.py:84-93 | After a category destroy, no requester sees the category or any goal in it. Every other category's visibility is unchanged. |
| Visibility.DestroyGoalHides | goals/views.py:130-138 | After a goal destroy, the goal is hidden from everyone. Every other goal's visibility is unchanged, under the as-written filter the views serve and under the intended one. |
| Validation.ValidateCategoryBoardAsWritten | goals/serializers.py:29-38 | As written: an unknown board is rejected as not existing and a deleted board as deleted. Any live board ends in an attribute error, so the check never accepts. |
| Validation.ValidateCategoryBoard | goals/serializers.py:29-38 | Intended check: it accepts exactly a live board on which the requester holds owner or writer. It rejects an unknown board as not existing, a deleted board as deleted and a live board without such a role as "owner or writer required". |
| Validation.CategoryBoardCheckNeverPasses | goals/serializers.py:32-37 | The case that shows it: for a live board where the requester is owner or writer, the as-written check fails with an attribute error and the intended one accepts. |
| Validation.ValidateGoalCategoryOnCreateAsWritten | goals/serializers.py:42-64 | As written, goal creation accepts a category exactly when three things hold: it is live, the requester created it, and its board has an owner or writer row held by any user. A deleted or unknown category is rejected as not existing; any other refusal of a live category is a permission error. |
| Validation.ValidateGoalCategoryOnCreate | goals/serializers.py:53-61 | Intended check: it accepts a category exactly when it is live, the requester created it, and the requester is owner or writer of its board. A deleted or unknown category is not found; any other refusal of a live category is a permission error. |
| Validation.ValidateGoalCategoryOnUpdate | goals/serializers.py:67-80 | Goal update accepts a category exactly when it is live and the requester created it. A live category of another user is a permission error. |
| Validation.GoalCategoryChecksOrdered | goals/serializers.py:53-80 | Each create check accepts only what the update check accepts. The intended create check is the as-written one with the requester's own role added. |
| Validation.GoalCreateCheckIgnoresRequester | goals/serializers.py:57-61 | In a concrete store, the creator of a category who holds no row on its board passes the as-written check because another user owns the board. The intended check refuses them. |
| Reconciliation.LastRoles | goals/serializers.py:138 | The dictionary built from the submitted list has exactly the submitted users as keys. |
| Reconciliation.LastRolesLastWins | goals/serializers.py:138 | When the list names a user several times, the dictionary keeps the role of the last entry. |
| Reconciliation.FirstSeen | goals/serializers.py:138 | The dictionary's keys, without repetition, are exactly the submitted users. |
| Reconciliation.FirstSeenOrder | goals/serializers.py:138 | The dictionary's keys come in the order of first appearance: of any two keys, the earlier one is named by an entry that comes before every entry of the later one. This order fixes which fresh id each created row gets. |
| Reconciliation.VisitSpec | goals/serializers.py:142-149 | One pass of the loop touches only the row it visits and takes that row's user out of the dictionary. A visited row is deleted when its user is absent from the dictionary. Otherwise it carries the dictionary's role, and is left as it was when the role is already its own. |
| Reconciliation.ProcessOldPending | goals/serializers.py:140-149 | The loop over the board's rows other than the acting owner's removes exactly the visited users from the dictionary. It never creates a row. |
| Reconciliation.ProcessOldRows | goals/serializers.py:140-149 | Rows the loop does not visit are unchanged. A visited row survives exactly when its user is still in the dictionary when the loop reaches it, and then carries the dictionary's role. |
| Reconciliation.AddRows | goals/serializers.py:150-153 | The creation loop adds one row per remaining user, with that user's role, under fresh consecutive ids. Existing rows are left alone. |
| Reconciliation.ReconcileAsWritten | goals/serializers.py:135-153 | Reconciliation touches only the participant table and never moves the row id sequence backwards. |
| Reconciliation.ReconcileAsWrittenExisting | goals/serializers.py:140-149 | Rows of the acting owner and rows of other boards are untouched. Among the board's other rows, one whose user is not submitted is deleted. One whose user is submitted carries the submitted role, so it is unchanged when the role is the same. |
| Reconciliation.ReconcileAsWrittenCreated | goals/serializers.py:150-153 | As written, exactly one row is created per submitted user who was not a participant of the board or who is the acting owner. Each new row is on the board, has the user's last submitted role and takes a fresh id. No other row is created. |
| Reconciliation.ReconcileAsWrittenDuplicatesOwner | goals/serializers.py:138-153 | As written, a submitted list that names the acting owner leaves the owner with two rows on the board. |
| Reconciliation.Without | goals/serializers.py:138-140 | Dropping the acting owner's entries removes exactly that user from the submitted users and from the dictionary (with LastRolesWithout). |
| Reconciliation.LastRolesWithout | goals/serializers.py:138-140 | The dictionary of the list without a user's entries is the dictionary without that user. |
| Reconciliation.Reconcile | goals/serializers.py:135-153 | Intended reconciliation: the as-written one with the acting owner's entries ignored. It changes no table but the participants. |
| Reconciliation.WithoutAbsent | goals/serializers.py:138-140 | Dropping the entries of a user the list does not name leaves the list as it was. |
| Reconciliation.ReconcileAgreesWithoutOwnerEntry | goals/serializers.py:138-153 | When the list does not name the acting owner, the intended and the as-written reconciliation give the same store. |
| Reconciliation.ReconcileSparesOwner | goals/serializers.py:140 | The acting owner's rows and the rows of other boards come out unchanged, and no row is added for them. |
| Reconciliation.ReconcileFinalRoles | goals/serializers.py:138-153 | Afterwards, every user other than the acting owner holds a role on the board exactly when the list names them, and that role is the one in their last entry. |
| Reconciliation.ReconcilePreservesInvariants | goals/serializers.py:140-153 | The intended reconciliation keeps the store valid and keeps one row per (board, user). |
| Reconciliation.ReconcileGrantsNoOwner | goals/serializers.py:142-153 | When no entry asks for owner, every owner row afterwards is an owner row that existed before, unchanged. |
| Reconciliation.LoopGrantsNoOwner | goals/serializers.py:142-149 | When the dictionary holds no owner role, every owner row after the loop over existing rows is an old row unchanged, and the dictionary left for creation still holds no owner role. |
| Reconciliation.ReconcileAsWrittenGrantsNoOwner | goals/serializers.py:116-153 | As written, when no entry asks for owner, every owner row afterwards is an owner row that existed before, unchanged, on any valid store and even when the list names the acting owner. |
| Boards.AssignableRolesExcludeOwner | goals/serializers.py:117 | The role choices offered for participants are the choices without the first, which are exactly writer and reader. |
| Boards.CreateBoard | goals/serializers.py:109-113 | Creation adds one live board with the given title under a new id (new whenever the store is valid), and one participant row: the creator as owner of that board. Each id sequence advances by one. Nothing else changes. |
| Boards.CreateBoardSeedsOwner | goals/serializers.py:109-113 | On any valid store, the creator is the only participant of the new board and the only owner. The new board is visible to the creator and to nobody else. The store stays valid, and keeps one row per (board, user) when it had that. |
| Boards.ValidateRoles | goals/serializers.py:116-118 | The submitted participant list passes exactly when no entry asks for the owner role. Otherwise it fails as an invalid choice. |
| Boards.CheckUpdate | goals/serializers.py:116-137 | The checks before reconciliation: an invisible board is not found; a present list with an owner entry is an invalid choice; otherwise a partial update or a missing list is a key error; otherwise the submitted list is passed on. These three errors are the only ones the model yields; field-level errors of the body are left out. |
| Boards.UpdateBoardAsWritten | goals/serializers.py:135-158 | Board update as written succeeds exactly when the board is in the requester's queryset, the update is full, the list is present and no entry asks for owner; a failure carries the error of the checks. The title is replaced only by a present, non-empty title. Other boards, the deleted flag, categories, goals and comments are unchanged, and the participant table and row sequence are those of Reconciliation.ReconcileAsWritten, whose delete, retag and create behaviour Reconciliation.ReconcileAsWrittenExisting and Reconciliation.ReconcileAsWrittenCreated state. |
| Boards.UpdateBoardAsWrittenDuplicatesRequester | goals/serializers.py:136-153 | As written, a successful update whose list names the requester, on a valid store, leaves the requester with two rows on the board. |
| Boards.UpdateBoard | goals/serializers.py:135-158 | Intended board update: the same success condition, errors, title rule and frame as the as-written one, with the requester's own entries ignored by the reconciliation. |
| Boards.UpdateBoardAgreesAsWritten | goals/serializers.py:135-158 | The intended and the as-written board update give the same result whenever no entry names the requester. |
| Boards.UpdateBoardAsWrittenNeverGrantsOwner | goals/serializers.py:116-153 | A successful board update as written creates no owner row and turns no row into an owner row, on any valid store, even when the list names the requester. |
| Boards.UpdateBoardNeverGrantsOwner | goals/serializers.py:116-153 | A successful intended board update creates no owner row and turns no row into an owner row. |
| Boards.UpdateBoardParticipants | goals/serializers.py:135-153 | After a successful intended update, the requester's rows are unchanged. Every other user holds a role on the board exactly when the list names them, with the role of their last entry. The store stays valid with one row per (board, user). |
| Boards.UpdateBoardAccess | goals/serializers.py:135-153 | After a successful intended update, a user other than the requester sees the board exactly when the list names them. A user named as writer passes the intended category board check on it. |

## Left out

- Permission classes (`goals/permissions.py`, not part of this model): the role checks they make before a handler runs are not modelled. Handlers are modelled from the point where the object has been found.
- `core.models.User` and the profile serializer: users are opaque ids. Resolving a submitted username to a user, and its "does not exist" error, is not modelled.
- Django ORM, `prefetch_related`/`select_related` and `transaction.atomic`: each handler is a single atomic transition. The create loop of the board update runs outside the transaction, which matters under concurrency or when a create fails: the deletes and role changes of the loop and the earlier creates stay committed, and the title is not set.
- Querysets are modelled as sets. Duplicate result rows that a join over several participant rows of one user would produce are not modelled. Retrieval is modelled faithfully only on stores with one row per (board, user): the detail views fetch with a single-object `get()` on the joined queryset, so a user with two rows on a board (the state Boards.UpdateBoardAsWrittenDuplicatesRequester shows the as-written update can reach) gets a "multiple objects returned" server error where the model answers with the object.
- The order in which the existing participant rows are visited is modelled as ascending row id. The queryset has no explicit `order_by`, and a default ordering in `goals/models.py` is unknown. The order matters only when a user has several rows on the board.
- `goals/models.py` is not part of this model. Only the archived goal status matters here. The role order owner, writer, reader is taken as the declaration order. Whether (board, user) is declared unique in the database is unknown. The second owner row is modelled as created, not as an integrity error.
- Pagination, ordering, search and `goals/filters.py`: framework configuration with no logic.
- Boards.CheckUpdate: field-level validation of the request body is not modelled beyond the role choice. Each participant entry also carries the serializer's other fields, such as a required `board` that the update then ignores, and the title has its own field checks; their errors are not among the three the model yields.
- Creation of categories, goals and comments, and comment update: only the validators and the visibility filters are modelled, because the other serializers are field lists.
- Timestamps, priority, due date, description, category and goal titles, and the debug `print` in the goal list: not part of the authorization or lifecycle logic.
- Boards.CheckUpdate: a full update without a participant list is rejected by the framework's field validation as a missing field; it is modelled as the same key error that every partial update meets at the `pop` of `user`.
- Boards.UpdateBoard: this is the corrected handler, not the code as written; Boards.UpdateBoardAsWritten is the code. Boards.UpdateBoardParticipants and Boards.UpdateBoardAccess are proved of the corrected handler only; Boards.UpdateBoardAsWrittenNeverGrantsOwner states the owner property of the code itself. As written, a list naming the requester adds a second row for them, and the writer clause of Boards.UpdateBoardAccess fails because the as-written category board check never accepts.
- Reconciliation.ReconcileAsWrittenExisting: stated only for stores with one row per (board, user). For other stores, Reconciliation.ProcessOldRows gives the general form, in which a second row of a user is deleted once the first row has taken the user out of the dictionary.

## Findings

| source | as written | input that shows it | evidently intended | confidence | as-written member | corrected member |
|---|---|---|---|---|---|---|
| goals/views.py:121 | `Q(participant) and ~Q(archived)` evaluates to the second filter, so the participant condition is dropped (also at line 132) | a non-archived goal on a board where the requester has no participant row is listed | goals limited to the requester's boards and not archived | high, not executed | Visibility.GoalFilterLeaksToOutsider | Visibility.VisibleGoals |
| goals/serializers.py:32 | `BoardParticipant.object` is not a manager, so every live board raises an attribute error | a live board on which the requester is owner | live board accepted when the requester is owner or writer | high, not executed | Validation.CategoryBoardCheckNeverPasses | Validation.ValidateCategoryBoard |
| goals/serializers.py:57-60 | the owner/writer lookup has no user filter | the category's creator holds no row on the board while another user owns it | requester must be owner or writer of the board | high, not executed | Validation.GoalCreateCheckIgnoresRequester | Validation.ValidateGoalCategoryOnCreate |
| goals/serializers.py:138-153 | the acting owner's rows are excluded from the loop, but the owner's entry stays in the dictionary and is created | the board owner submits a list containing their own user id with role writer | the owner's entry is ignored, with one row per (board, user) kept (proved in Boards.UpdateBoardParticipants and Reconciliation.ReconcilePreservesInvariants) | medium, not executed; the database may instead reject the row | Boards.UpdateBoardAsWrittenDuplicatesRequester | Boards.UpdateBoard |

=== FILE: boards.dfy ===
/**
 The board serializers: creation seeds the creator as owner; update checks
 the submitted roles, reconciles the participant rows and then sets the
 title when a non-empty one was given.
 */
module Boards {
  import opened Models
  import opened Results
  import opened Reconciliation
  import opened Visibility
  import opened Validation

  /** The choices of the role field, in declaration order. */
  const RoleChoices: seq<Role> := [Owner, Writer, Reader]

  /** The participant serializer offers every choice but the first. */
  const AssignableRoles: seq<Role> := RoleChoices[1..]

  lemma AssignableRolesExcludeOwner()
    ensures Owner !in AssignableRoles
    ensures forall r :: r in AssignableRoles <==> r == Writer || r == Reader
  {
  }

  /**
   Board creation: a live board with the given title takes the next board
   id, and one participant row, the creator as owner, takes the next row id.
   */
  function CreateBoard(s: Store, u: UserId, title: string): (r: (Store, BoardId))
    ensures var (t, b) := r;
      && (Valid(s) ==> b !in s.boards)
      && t.boards.Keys == s.boards.Keys + {b}
      && t.boards[b] == Board(title, false)
      && (forall x :: x in s.boards && x != b ==> t.boards[x] == s.boards[x])
      && t.participants.Keys == s.participants.Keys + {s.nextRow}
      && t.participants[s.nextRow] == Participant(b, u, Owner)
      && (forall id :: id in s.participants && id != s.nextRow ==> t.participants[id] == s.participants[id])
      && t.categories == s.categories && t.goals == s.goals && t.comments == s.comments
      && t.nextBoard == s.nextBoard + 1 && t.nextRow == s.nextRow + 1
  {
    var b := s.nextBoard;
    (s.(boards := s.boards[b := Board(title, false)], nextBoard := b + 1,
        participants := s.participants[s.nextRow := Participant(b, u, Owner)], nextRow := s.nextRow + 1),
     b)
  }

  /**
   On a valid store the new board has exactly one participant, its creator,
   as owner; it is visible to the creator and to nobody else; the store
   stays valid with one row per (board, user).
   */
  lemma CreateBoardSeedsOwner(s: Store, u: UserId, title: string)
    requires Valid(s)
    ensures var (r, b) := CreateBoard(s, u, title);
      && (forall id :: id in r.participants && r.participants[id].board == b ==>
            r.participants[id] == Participant(b, u, Owner))
      && (forall v :: HasRole(r, b, v, {Owner}) <==> v == u)
      && (forall v :: b in VisibleBoards(r, v) <==> v == u)
      && (forall x, v :: x != b ==> (x in VisibleBoards(r, v) <==> x in VisibleBoards(s, v)))
      && Valid(r) && (OneRowPerUser(s) ==> OneRowPerUser(r))
  {
    var (r, b) := CreateBoard(s, u, title);
    assert HasRole(r, b, u, {Owner}) by {
      assert r.participants[s.nextRow].role in {Owner};
    }
    forall x, v | x != b
      ensures IsParticipant(r, x, v) <==> IsParticipant(s, x, v)
    {
      if IsParticipant(r, x, v) {
        var id :| id in r.participants && r.participants[id].board == x && r.participants[id].user == v;
        assert id != s.nextRow;
      }
      if IsParticipant(s, x, v) {
        var id :| id in s.participants && s.participants[id].board == x && s.participants[id].user == v;
        assert r.participants[id] == s.participants[id];
      }
    }
  }

  /** The role validation of the nested participant serializer. */
  function ValidateRoles(d: seq<Entry>): (r: Result<seq<Entry>, Error>)
    ensures r.Ok? <==> forall i :: 0 <= i < |d| ==> d[i].role != Owner
    ensures r.Ok? ==> r.value == d
    ensures !r.Ok? ==> r.error == InvalidChoice
  {
    assert forall x: Role :: x in AssignableRoles <==> x != Owner;
    if forall i :: 0 <= i < |d| ==> d[i].role in AssignableRoles then Ok(d) else Err(InvalidChoice)
  }

  /** Sets the title when the submitted one is present and non-empty. */
  function Retitle(s: Store, b: BoardId, title: Option<string>): Store
    requires b in s.boards
  {
    if title.Some? && title.value != "" then s.(boards := s.boards[b := s.boards[b].(title := title.value)])
    else s
  }

  /**
   What stands between a board update request and the reconciliation: the
   board must be in the requester's board queryset, every submitted role must
   be assignable, the hidden `user` field must be in the validated data (it
   is not on a partial update) and so must the participant list.
   */
  function CheckUpdate(s: Store, u: UserId, b: BoardId, participants: Option<seq<Entry>>, partial: bool)
    : (r: Result<seq<Entry>, Error>)
    ensures r == Err(NotFound) <==> b !in VisibleBoards(s, u)
    ensures r == Err(InvalidChoice) <==>
      b in VisibleBoards(s, u) && participants.Some?
      && exists i :: 0 <= i < |participants.value| && participants.value[i].role == Owner
    ensures r == Err(KeyError) <==>
      b in VisibleBoards(s, u) && (partial || participants.None?)
      && (participants.Some? ==> forall i :: 0 <= i < |participants.value| ==> participants.value[i].role != Owner)
    ensures r.Ok? ==> participants == Some(r.value)
    ensures r.Err? ==> r.error in {NotFound, InvalidChoice, KeyError}
  {
    if b !in VisibleBoards(s, u) then Err(NotFound)
    else if participants.Some? && ValidateRoles(participants.value).Err? then Err(InvalidChoice)
    else if partial || participants.None? then Err(KeyError)
    else Ok(participants.value)
  }

  /**
   Board update by user `u` as written: after the checks, the participant
   rows are reconciled with `u` as the acting owner, an entry naming `u`
   included, and the title is set.
   */
  function UpdateBoardAsWritten(s: Store, u: UserId, b: BoardId, participants: Option<seq<Entry>>,
                                title: Option<string>, partial: bool): (r: Result<Store, Error>)
    ensures r.Ok? <==> CheckUpdate(s, u, b, participants, partial).Ok?
    ensures r.Ok? <==> b in VisibleBoards(s, u) && !partial && participants.Some?
                       && forall i :: 0 <= i < |participants.value| ==> participants.value[i].role != Owner
    ensures r.Err? ==> r.error == CheckUpdate(s, u, b, participants, partial).error
    ensures r.Ok? ==> r.value.boards.Keys == s.boards.Keys && r.value.boards[b].isDeleted == s.boards[b].isDeleted
    ensures r.Ok? ==>
      r.value.boards[b].title == (if title.Some? && title.value != "" then title.value else s.boards[b].title)
    ensures r.Ok? ==> forall x :: x in s.boards && x != b ==> r.value.boards[x] == s.boards[x]
    ensures r.Ok? ==> r.value.categories == s.categories && r.value.goals == s.goals && r.value.comments == s.comments
    ensures r.Ok? ==> var q := ReconcileAsWritten(s, b, u, participants.value);
      r.value.participants == q.participants && r.value.nextRow == q.nextRow
  {
    match CheckUpdate(s, u, b, participants, partial)
    case Err(e) => Err(e)
    case Ok(d) => Ok(Retitle(ReconcileAsWritten(s, b, u, d), b, title))
  }

  /**
   Board update as intended: the same checks, then the reconciliation that
   ignores an entry naming the requester.
   */
  function UpdateBoard(s: Store, u: UserId, b: BoardId, participants: Option<seq<Entry>>,
                       title: Option<string>, partial: bool): (r: Result<Store, Error>)
    ensures r.Ok? <==> b in VisibleBoards(s, u) && !partial && participants.Some?
                       && forall i :: 0 <= i < |participants.value| ==> participants.value[i].role != Owner
    ensures r.Err? ==> r.error == CheckUpdate(s, u, b, participants, partial).error
    ensures r.Ok? ==> r.value.boards.Keys == s.boards.Keys && r.value.boards[b].isDeleted == s.boards[b].isDeleted
    ensures r.Ok? ==>
      r.value.boards[b].title == (if title.Some? && title.value != "" then title.value else s.boards[b].title)
    ensures r.Ok? ==> forall x :: x in s.boards && x != b ==> r.value.boards[x] == s.boards[x]
    ensures r.Ok? ==> r.value.categories == s.categories && r.value.goals == s.goals && r.value.comments == s.comments
  {
    match CheckUpdate(s, u, b, participants, partial)
    case Err(e) => Err(e)
    case Ok(d) => Ok(Retitle(Reconcile(s, b, u, d), b, title))
  }

  /** The two handlers give the same answer whenever the list does not name the requester. */
  lemma UpdateBoardAgreesAsWritten(s: Store, u: UserId, b: BoardId, participants: Option<seq<Entry>>,
                                   title: Option<string>, partial: bool)
    requires participants.Some? ==> forall i :: 0 <= i < |participants.value| ==> participants.value[i].user != u
    ensures UpdateBoard(s, u, b, participants, title, partial) == UpdateBoardAsWritten(s, u, b, participants, title, partial)
  {
    if participants.Some? {
      ReconcileAgreesWithoutOwnerEntry(s, b, u, participants.value);
    }
  }

  /**
   As written, a successful update whose list names the requester, who has
   a row on the board, leaves the requester with two rows on the board.
   */
  lemma UpdateBoardAsWrittenDuplicatesRequester(s: Store, u: UserId, b: BoardId, participants: Option<seq<Entry>>,
                                                title: Option<string>, partial: bool)
    requires Valid(s) && OneRowPerUser(s)
    requires UpdateBoardAsWritten(s, u, b, participants, title, partial).Ok?
    requires exists i :: 0 <= i < |participants.value| && participants.value[i].user == u
    ensures !OneRowPerUser(UpdateBoardAsWritten(s, u, b, participants, title, partial).value)
  {
    var d := participants.value;
    var i :| 0 <= i < |d| && d[i].user == u;
    assert u in Users(d);
    ReconcileAsWrittenDuplicatesOwner(s, b, u, d);
    assert UpdateBoardAsWritten(s, u, b, participants, title, partial).value.participants
        == ReconcileAsWritten(s, b, u, d).participants;
  }

  /**
   The board update as written never grants the owner role either: every
   owner row afterwards is an owner row that existed before, unchanged, even
   when the list names the requester.
   */
  lemma UpdateBoardAsWrittenNeverGrantsOwner(s: Store, u: UserId, b: BoardId, participants: Option<seq<Entry>>,
                                             title: Option<string>, partial: bool)
    requires Valid(s)
    requires UpdateBoardAsWritten(s, u, b, participants, title, partial).Ok?
    ensures var Q := UpdateBoardAsWritten(s, u, b, participants, title, partial).value.participants;
      forall id :: id in Q && Q[id].role == Owner ==> id in s.participants && Q[id] == s.participants[id]
  {
    var d := participants.value;
    assert UpdateBoardAsWritten(s, u, b, participants, title, partial).value.participants
        == ReconcileAsWritten(s, b, u, d).participants;
    ReconcileAsWrittenGrantsNoOwner(s, b, u, d);
  }

  /**
   A successful board update never grants the owner role: every owner row
   afterwards is an owner row that existed before, unchanged.
   */
  lemma UpdateBoardNeverGrantsOwner(s: Store, u: UserId, b: BoardId, participants: Option<seq<Entry>>,
                                    title: Option<string>, partial: bool)
    requires Valid(s) && OneRowPerUser(s)
    requires UpdateBoard(s, u, b, participants, title, partial).Ok?
    ensures var Q := UpdateBoard(s, u, b, participants, title, partial).value.participants;
      forall id :: id in Q && Q[id].role == Owner ==> id in s.participants && Q[id] == s.participants[id]
  {
    var d := participants.value;
    assert UpdateBoard(s, u, b, participants, title, partial).value.participants == Reconcile(s, b, u, d).participants;
    ReconcileGrantsNoOwner(s, b, u, d);
  }

  /**
   After a successful board update the requester keeps their rows, and every
   other user holds a role on the board exactly when the list names them,
   with the role of their last entry.
   */
  lemma UpdateBoardParticipants(s: Store, u: UserId, b: BoardId, participants: Option<seq<Entry>>,
                                title: Option<string>, partial: bool)
    requires Valid(s) && OneRowPerUser(s)
    requires UpdateBoard(s, u, b, participants, title, partial).Ok?
    ensures var r := UpdateBoard(s, u, b, participants, title, partial).value; var m := LastRoles(participants.value);
      && (forall id :: id in s.participants && s.participants[id].user == u ==>
            id in r.participants && r.participants[id] == s.participants[id])
      && (forall v, role :: v != u ==> (HasRole(r, b, v, {role}) <==> v in m && m[v] == role))
      && Valid(r) && OneRowPerUser(r)
  {
    var d := participants.value;
    ReconcileSparesOwner(s, b, u, d);
    ReconcileFinalRoles(s, b, u, d);
    ReconcilePreservesInvariants(s, b, u, d);
  }

  /**
   After a successful board update, a user other than the requester sees the
   board exactly when the list names them, and one named as writer passes
   the category board check on it.
   */
  lemma UpdateBoardAccess(s: Store, u: UserId, b: BoardId, participants: Option<seq<Entry>>,
                          title: Option<string>, partial: bool, v: UserId)
    requires Valid(s) && OneRowPerUser(s) && v != u
    requires UpdateBoard(s, u, b, participants, title, partial).Ok?
    ensures var r := UpdateBoard(s, u, b, participants, title, partial).value; var m := LastRoles(participants.value);
      && (b in VisibleBoards(r, v) <==> v in m)
      && (v in m && m[v] == Writer ==> ValidateCategoryBoard(r, v, b) == Ok(b))
  {
    var r := UpdateBoard(s, u, b, participants, title, partial).value;
    var m := LastRoles(participants.value);
    UpdateBoardParticipants(s, u, b, participants, title, partial);
    if IsParticipant(r, b, v) {
      var id :| id in r.participants && r.participants[id].board == b && r.participants[id].user == v;
      assert HasRole(r, b, v, {r.participants[id].role});
    }
    if v in m {
      assert HasRole(r, b, v, {m[v]});
      if m[v] == Writer {
        var id :| id in r.participants && r.participants[id].board == b && r.participants[id].user == v
                  && r.participants[id].role in {Writer};
        assert r.participants[id].role in Editors;
      }
    }
  }
}

=== FILE: cascade.dfy ===
/**
 The three destroy handlers of the board, category and goal detail views.
 None of them removes a row: boards and categories are flagged deleted, goals
 are moved to the archived status.
 */
module Cascade {
  import opened Models

  /** The category after a soft delete. */
  function Deleted(c: Category): Category {
    c.(isDeleted := true)
  }

  /** The goal after archiving. */
  function Archive(g: Goal): Goal {
    g.(status := Archived)
  }

  /**
   Board destroy: flag the board deleted, flag every category of the board
   deleted and archive every goal whose category is on the board, in one
   transaction.
   */
  function DestroyBoard(s: Store, b: BoardId): (r: Store)
    requires b in s.boards
    ensures r.boards.Keys == s.boards.Keys && r.categories.Keys == s.categories.Keys
    ensures r.goals.Keys == s.goals.Keys
    ensures r.boards[b].isDeleted && r.boards[b].title == s.boards[b].title
    ensures forall x :: x in s.boards && x != b ==> r.boards[x] == s.boards[x]
    ensures forall c :: c in s.categories ==>
      && r.categories[c].board == s.categories[c].board
      && r.categories[c].user == s.categories[c].user
      && (r.categories[c].isDeleted <==> s.categories[c].isDeleted || s.categories[c].board == b)
    ensures forall g :: g in s.goals ==>
      && r.goals[g].category == s.goals[g].category
      && r.goals[g].user == s.goals[g].user
      && r.goals[g].status == (if GoalOnBoard(s, g, b) then Archived else s.goals[g].status)
    ensures r.comments == s.comments && r.participants == s.participants
    ensures r.nextBoard == s.nextBoard && r.nextRow == s.nextRow
  {
    s.(boards := s.boards[b := s.boards[b].(isDeleted := true)],
       categories := map c | c in s.categories ::
         if s.categories[c].board == b then Deleted(s.categories[c]) else s.categories[c],
       goals := map g | g in s.goals ::
         if GoalOnBoard(s, g, b) then Archive(s.goals[g]) else s.goals[g])
  }

  /** Category destroy: flag the category deleted and archive exactly the goals in it. */
  function DestroyCategory(s: Store, c: CategoryId): (r: Store)
    requires c in s.categories
    ensures r.categories.Keys == s.categories.Keys && r.goals.Keys == s.goals.Keys
    ensures r.categories[c] == s.categories[c].(isDeleted := true)
    ensures forall x :: x in s.categories && x != c ==> r.categories[x] == s.categories[x]
    ensures forall g :: g in s.goals ==>
      && r.goals[g].category == s.goals[g].category
      && r.goals[g].user == s.goals[g].user
      && r.goals[g].status == (if s.goals[g].category == c then Archived else s.goals[g].status)
    ensures r.boards == s.boards && r.comments == s.comments && r.participants == s.participants
    ensures r.nextBoard == s.nextBoard && r.nextRow == s.nextRow
  {
    s.(categories := s.categories[c := Deleted(s.categories[c])],
       goals := map g | g in s.goals ::
         if s.goals[g].category == c then Archive(s.goals[g]) else s.goals[g])
  }

  /** Goal destroy: the goal's status becomes archived and nothing else changes. */
  function DestroyGoal(s: Store, g: GoalId): (r: Store)
    requires g in s.goals
    ensures r.goals.Keys == s.goals.Keys
    ensures r.goals[g].status == Archived
    ensures r.goals[g].category == s.goals[g].category && r.goals[g].user == s.goals[g].user
    ensures forall x :: x in s.goals && x != g ==> r.goals[x] == s.goals[x]
    ensures r.boards == s.boards && r.categories == s.categories
    ensures r.comments == s.comments && r.participants == s.participants
    ensures r.nextBoard == s.nextBoard && r.nextRow == s.nextRow
  {
    s.(goals := s.goals[g := Archive(s.goals[g])])
  }

  lemma DestroyBoardIdempotent(s: Store, b: BoardId)
    requires b in s.boards
    ensures DestroyBoard(DestroyBoard(s, b), b) == DestroyBoard(s, b)
  {
    var r := DestroyBoard(s, b);
    var r2 := DestroyBoard(r, b);
    assert r2.categories == r.categories;
    assert forall g :: g in s.goals ==> (GoalOnBoard(r, g, b) <==> GoalOnBoard(s, g, b));
    assert r2.goals == r.goals;
  }

  lemma DestroyCategoryIdempotent(s: Store, c: CategoryId)
    requires c in s.categories
    ensures DestroyCategory(DestroyCategory(s, c), c) == DestroyCategory(s, c)
  {
    var r := DestroyCategory(s, c);
    assert DestroyCategory(r, c).goals == r.goals;
  }

  lemma DestroyGoalIdempotent(s: Store, g: GoalId)
    requires g in s.goals
    ensures DestroyGoal(DestroyGoal(s, g), g) == DestroyGoal(s, g)
  {
  }

  /**
   Destroying a category of a board that was already destroyed changes
   nothing: the board cascade has already done the category cascade.
   */
  lemma DestroyBoardSubsumesCategory(s: Store, b: BoardId, c: CategoryId)
    requires b in s.boards && c in s.categories && s.categories[c].board == b
    ensures DestroyCategory(DestroyBoard(s, b), c) == DestroyBoard(s, b)
  {
    var r := DestroyBoard(s, b);
    assert DestroyCategory(r, c).categories == r.categories;
    assert DestroyCategory(r, c).goals == r.goals;
  }

  /** The destroy handlers keep every reference and id sequence intact. */
  lemma DestroyPreservesValid(s: Store, b: BoardId, c: CategoryId, g: GoalId)
    requires Valid(s)
    ensures b in s.boards ==> Valid(DestroyBoard(s, b)) && (OneRowPerUser(s) ==> OneRowPerUser(DestroyBoard(s, b)))
    ensures c in s.categories ==>
      Valid(DestroyCategory(s, c)) && (OneRowPerUser(s) ==> OneRowPerUser(DestroyCategory(s, c)))
    ensures g in s.goals ==> Valid(DestroyGoal(s, g)) && (OneRowPerUser(s) ==> OneRowPerUser(DestroyGoal(s, g)))
  {
  }
}

=== FILE: models.dfy ===
/**
 The entities of the goal tracker and the store that holds them.

 Every table is a finite map from a primary key to a record; references between
 records are plain keys. The participant table is keyed by its own row id, so
 that two rows for the same (board, user) pair can be represented: the store
 does not enforce uniqueness by construction, `OneRowPerUser` states it.
 */
module Models {

  type UserId = nat
  type BoardId = nat
  type CategoryId = nat
  type GoalId = nat
  type CommentId = nat
  type RowId = nat

  /** Board roles, in the order of their choices: owner first. */
  datatype Role = Owner | Writer | Reader

  /** Goal status; `Archived` stands for a deleted goal. */
  datatype Status = ToDo | InProgress | Done | Archived

  datatype Board = Board(title: string, isDeleted: bool)

  /** A category lives on one board and is owned by the user who created it. */
  datatype Category = Category(board: BoardId, user: UserId, isDeleted: bool)

  /** A goal lives in one category and is owned by the user who created it. */
  datatype Goal = Goal(category: CategoryId, user: UserId, status: Status)

  datatype Comment = Comment(goal: GoalId, user: UserId)

  /** One row of the board-participant table. */
  datatype Participant = Participant(board: BoardId, user: UserId, role: Role)

  /**
   The whole database. `nextBoard` and `nextRow` play the part of the id
   sequences of the board and participant tables: the next row inserted
   receives that id.
   */
  datatype Store = Store(
    boards: map<BoardId, Board>,
    categories: map<CategoryId, Category>,
    goals: map<GoalId, Goal>,
    comments: map<CommentId, Comment>,
    participants: map<RowId, Participant>,
    nextBoard: nat,
    nextRow: nat)

  /** Ids come from the sequences and every reference points at an existing row. */
  ghost predicate Valid(s: Store) {
    && (forall b :: b in s.boards ==> b < s.nextBoard)
    && (forall id :: id in s.participants ==> id < s.nextRow)
    && (forall id :: id in s.participants ==> s.participants[id].board in s.boards)
    && (forall c :: c in s.categories ==> s.categories[c].board in s.boards)
    && (forall g :: g in s.goals ==> s.goals[g].category in s.categories)
    && (forall k :: k in s.comments ==> s.comments[k].goal in s.goals)
  }

  /** At most one participant row per (board, user) pair. */
  ghost predicate OneRowPerUser(s: Store) {
    forall i, j :: i in s.participants && j in s.participants && i != j ==>
      s.participants[i].board != s.participants[j].board || s.participants[i].user != s.participants[j].user
  }

  /** `u` has some participant row, of any role, on board `b`. */
  predicate IsParticipant(s: Store, b: BoardId, u: UserId) {
    exists id :: id in s.participants && s.participants[id].board == b && s.participants[id].user == u
  }

  /** `u` has a participant row on board `b` whose role is one of `roles`. */
  predicate HasRole(s: Store, b: BoardId, u: UserId, roles: set<Role>) {
    exists id :: id in s.participants && s.participants[id].board == b && s.participants[id].user == u
                 && s.participants[id].role in roles
  }

  /** The errors a request can end in, as the web framework reports them. */
  datatype Error =
    | NotFound          // the object is outside the view's queryset
    | DoesNotExist      // a related key is outside its field's queryset
    | InvalidChoice     // a role outside its field's choices
    | BoardDeleted      // the category's board is flagged deleted
    | NotOwnerOrWriter  // the requester is neither owner nor writer of the board
    | PermissionDenied
    | AttributeError    // a misspelt manager name reached at run time
    | KeyError          // a field missing from the validated data

  /** The roles that may edit a board's content. */
  const Editors: set<Role> := {Owner, Writer}

  /** Goal `g` sits in a category of board `b` (the join goal -> category -> board). */
  predicate GoalOnBoard(s: Store, g: GoalId, b: BoardId)
    requires g in s.goals
  {
    s.goals[g].category in s.categories && s.categories[s.goals[g].category].board == b
  }
}

=== FILE: reconciliation.dfy ===
/**
 The participant reconciliation of the board update serializer: a three-way
 diff between the board's participant rows and the submitted participant
 list. Existing rows of other users than the acting owner are deleted when
 their user is not submitted, get the submitted role when it differs, and are
 left alone otherwise; submitted users without an existing row get a new row.
 */
module Reconciliation {
  import opened Models

  /** One element of the submitted participant list. */
  datatype Entry = Entry(user: UserId, role: Role)

  /** The users named by a participant list. */
  function Users(d: seq<Entry>): set<UserId> {
    set i | 0 <= i < |d| :: d[i].user
  }

  lemma UsersSnoc(w: seq<Entry>, e: Entry)
    ensures Users(w + [e]) == Users(w) + {e.user}
  {
    var v := w + [e];
    forall x | x in Users(v) ensures x in Users(w) + {e.user} {
      var i :| 0 <= i < |v| && v[i].user == x;
      if i < |w| { assert w[i].user == x; }
    }
    forall x | x in Users(w) ensures x in Users(v) {
      var i :| 0 <= i < |w| && w[i].user == x;
      assert v[i].user == x;
    }
    assert v[|w|].user == e.user;
  }

  /** Entry `i` is the last one that names its user. */
  predicate LastFor(d: seq<Entry>, i: int)
    requires 0 <= i < |d|
  {
    forall j :: i < j < |d| ==> d[j].user != d[i].user
  }

  predicate Distinct(xs: seq<UserId>) {
    forall i, j :: 0 <= i < j < |xs| ==> xs[i] != xs[j]
  }

  /**
   The roles of the dictionary built from the list, keyed by user id: a later
   entry for the same user overwrites an earlier one.
   */
  function LastRoles(d: seq<Entry>): (m: map<UserId, Role>)
    ensures m.Keys == Users(d)
    decreases |d|
  {
    if |d| == 0 then map[]
    else
      var p := d[..|d| - 1];
      assert d == p + [d[|d| - 1]];
      UsersSnoc(p, d[|d| - 1]);
      LastRoles(p)[d[|d| - 1].user := d[|d| - 1].role]
  }

  lemma LastRolesSnoc(w: seq<Entry>, e: Entry)
    ensures LastRoles(w + [e]) == LastRoles(w)[e.user := e.role]
  {
    assert (w + [e])[..|w|] == w;
  }

  /** For duplicate entries the last one wins. */
  lemma {:induction false} LastRolesLastWins(d: seq<Entry>)
    ensures forall i :: 0 <= i < |d| && LastFor(d, i) ==> LastRoles(d)[d[i].user] == d[i].role
    decreases |d|
  {
    if |d| > 0 {
      var p := d[..|d| - 1];
      var last := d[|d| - 1];
      assert d == p + [last];
      LastRolesLastWins(p);
      LastRolesSnoc(p, last);
      forall i | 0 <= i < |d| - 1 && LastFor(d, i)
        ensures LastRoles(d)[d[i].user] == d[i].role
      {
        assert p[i] == d[i] && d[i].user != last.user;
        assert LastFor(p, i);
      }
    }
  }

  /** Every role in the dictionary comes from some entry, so it lies in any set all entries' roles lie in. */
  lemma {:induction false} LastRolesWithin(d: seq<Entry>, roles: set<Role>)
    requires forall i :: 0 <= i < |d| ==> d[i].role in roles
    ensures forall u :: u in LastRoles(d) ==> LastRoles(d)[u] in roles
    decreases |d|
  {
    if |d| > 0 {
      var p := d[..|d| - 1];
      LastRolesWithin(p, roles);
      LastRolesSnoc(p, d[|d| - 1]);
      assert d == p + [d[|d| - 1]];
    }
  }

  /** The keys of the same dictionary in insertion order: each user where it first appears. */
  function FirstSeen(d: seq<Entry>): (r: seq<UserId>)
    ensures Distinct(r)
    ensures forall u :: u in r <==> u in Users(d)
    decreases |d|
  {
    if |d| == 0 then []
    else
      var p := d[..|d| - 1];
      assert d == p + [d[|d| - 1]];
      UsersSnoc(p, d[|d| - 1]);
      var q := FirstSeen(p);
      if d[|d| - 1].user in q then q else q + [d[|d| - 1].user]
  }

  /** `x` appears in `d` at a position where `y` has not appeared yet. */
  predicate SeenBefore(d: seq<Entry>, x: UserId, y: UserId) {
    exists a :: 0 <= a < |d| && d[a].user == x && forall k :: 0 <= k <= a ==> d[k].user != y
  }

  /** The dictionary's keys come in the order of each user's first entry. */
  lemma {:induction false} FirstSeenOrder(d: seq<Entry>)
    ensures forall i, j :: 0 <= i < j < |FirstSeen(d)| ==> SeenBefore(d, FirstSeen(d)[i], FirstSeen(d)[j])
    decreases |d|
  {
    if |d| > 0 {
      var p := d[..|d| - 1];
      var e := d[|d| - 1];
      assert d == p + [e];
      FirstSeenOrder(p);
      var q := FirstSeen(p);
      var r := FirstSeen(d);
      assert r == if e.user in q then q else q + [e.user];
      forall i, j | 0 <= i < j < |r| ensures SeenBefore(d, r[i], r[j]) {
        assert r[i] == q[i];
        if j < |q| {
          assert r[j] == q[j] && SeenBefore(p, q[i], q[j]);
          var a :| 0 <= a < |p| && p[a].user == q[i] && forall k :: 0 <= k <= a ==> p[k].user != q[j];
          assert d[a].user == q[i];
        } else {
          assert r[j] == e.user && e.user !in Users(p);
          assert q[i] in Users(p);
          var a :| 0 <= a < |p| && p[a].user == q[i];
          forall k | 0 <= k <= a ensures d[k].user != e.user {
            assert p[k].user in Users(p);
          }
          assert d[a].user == q[i];
        }
      }
    }
  }

  /** The elements of `xs` still present in `m`, in their order. */
  function Keep(xs: seq<UserId>, m: map<UserId, Role>): (r: seq<UserId>)
    ensures forall u :: u in r <==> u in xs && u in m
    ensures Distinct(xs) ==> Distinct(r)
    decreases |xs|
  {
    if |xs| == 0 then []
    else
      assert forall u :: u in xs <==> u == xs[0] || u in xs[1..];
      (if xs[0] in m then [xs[0]] else []) + Keep(xs[1..], m)
  }

  /** Row `id` is one of the rows the loop visits: on board `b`, not the acting owner's. */
  predicate OldRow(rows: map<RowId, Participant>, id: RowId, b: BoardId, owner: UserId) {
    id in rows && rows[id].board == b && rows[id].user != owner
  }

  /** The users of the visited rows with ids in [lo, hi). */
  function UsersIn(rows: map<RowId, Participant>, b: BoardId, owner: UserId, lo: nat, hi: nat): set<UserId> {
    set id | id in rows && lo <= id < hi && OldRow(rows, id, b, owner) :: rows[id].user
  }

  /**
   One iteration of the loop over the existing rows, on row `i`: a row of the
   board that is not the acting owner's is deleted when its user is not in the
   dictionary `pending`; otherwise it takes the dictionary's role when that
   differs, and its user is removed from the dictionary.
   */
  function Visit(rows: map<RowId, Participant>, b: BoardId, owner: UserId,
                 pending: map<UserId, Role>, i: nat): (map<RowId, Participant>, map<UserId, Role>)
  {
    if OldRow(rows, i, b, owner) then
      var p := rows[i];
      if p.user !in pending then (rows - {i}, pending)
      else
        var rows' := if p.role != pending[p.user] then rows[i := p.(role := pending[p.user])] else rows;
        (rows', pending - {p.user})
    else (rows, pending)
  }

  /** The loop itself, visiting ids `i` up to `n` in ascending order. */
  function ProcessOld(rows: map<RowId, Participant>, b: BoardId, owner: UserId,
                      pending: map<UserId, Role>, i: nat, n: nat): (map<RowId, Participant>, map<UserId, Role>)
    decreases n - i
  {
    if i >= n then (rows, pending)
    else
      var next := Visit(rows, b, owner, pending, i);
      ProcessOld(next.0, b, owner, next.1, i + 1, n)
  }

  lemma UsersInEmpty(rows: map<RowId, Participant>, b: BoardId, owner: UserId, lo: nat, hi: nat)
    requires hi <= lo
    ensures UsersIn(rows, b, owner, lo, hi) == {}
  {
  }

  lemma UsersInSplit(rows: map<RowId, Participant>, b: BoardId, owner: UserId, lo: nat, hi: nat)
    requires lo < hi
    ensures UsersIn(rows, b, owner, lo, hi) ==
      (if OldRow(rows, lo, b, owner) then {rows[lo].user} else {}) + UsersIn(rows, b, owner, lo + 1, hi)
  {
  }

  /** Rows that agree on [lo, hi) have the same visited users there. */
  lemma UsersInFrame(rows: map<RowId, Participant>, rows1: map<RowId, Participant>, b: BoardId, owner: UserId,
                     lo: nat, hi: nat)
    requires forall id :: lo <= id < hi ==> (id in rows <==> id in rows1)
    requires forall id :: lo <= id < hi && id in rows ==> rows[id] == rows1[id]
    ensures UsersIn(rows, b, owner, lo, hi) == UsersIn(rows1, b, owner, lo, hi)
  {
    assert forall id :: lo <= id < hi ==> (OldRow(rows, id, b, owner) <==> OldRow(rows1, id, b, owner));
  }

  /** One iteration touches row `i` only and takes the visited user out of the dictionary. */
  lemma VisitSpec(rows: map<RowId, Participant>, b: BoardId, owner: UserId, pending: map<UserId, Role>, i: nat)
    ensures var next := Visit(rows, b, owner, pending, i);
      && (forall id :: id != i ==> (id in next.0 <==> id in rows))
      && (forall id :: id != i && id in rows ==> next.0[id] == rows[id])
      && next.1 == pending - (if OldRow(rows, i, b, owner) then {rows[i].user} else {})
      && (!OldRow(rows, i, b, owner) ==> next.0 == rows)
      && (OldRow(rows, i, b, owner) ==>
            && (i in next.0 <==> rows[i].user in pending)
            && (i in next.0 ==> next.0[i] == rows[i].(role := pending[rows[i].user])))
  {
    if OldRow(rows, i, b, owner) && rows[i].user !in pending {
      assert pending - {rows[i].user} == pending;
    }
  }

  /** The loop takes exactly the visited users out of the dictionary and deletes no row it does not visit. */
  lemma {:induction false} ProcessOldPending(rows: map<RowId, Participant>, b: BoardId, owner: UserId,
                                             pending: map<UserId, Role>, i: nat, n: nat)
    ensures var res := ProcessOld(rows, b, owner, pending, i, n);
      && res.1 == pending - UsersIn(rows, b, owner, i, n)
      && (forall id :: id in res.0 ==> id in rows)
    decreases n - i
  {
    if i >= n {
      UsersInEmpty(rows, b, owner, i, n);
    } else {
      var next := Visit(rows, b, owner, pending, i);
      VisitSpec(rows, b, owner, pending, i);
      ProcessOldPending(next.0, b, owner, next.1, i + 1, n);
      UsersInFrame(rows, next.0, b, owner, i + 1, n);
      UsersInSplit(rows, b, owner, i, n);
    }
  }

  /**
   What the loop does to the rows, in closed form: rows it does not visit
   are kept as they were; a visited row survives exactly when its user is
   still in the dictionary when it is reached, and then carries the
   dictionary's role.
   */
  lemma {:induction false} ProcessOldRows(rows: map<RowId, Participant>, b: BoardId, owner: UserId,
                                          pending: map<UserId, Role>, i: nat, n: nat)
    ensures var res := ProcessOld(rows, b, owner, pending, i, n);
      && (forall id :: id in rows && !(i <= id < n && OldRow(rows, id, b, owner)) ==>
            id in res.0 && res.0[id] == rows[id])
      && (forall id :: i <= id < n && OldRow(rows, id, b, owner) ==>
            && (id in res.0 <==> rows[id].user in pending && rows[id].user !in UsersIn(rows, b, owner, i, id))
            && (id in res.0 ==> res.0[id] == rows[id].(role := pending[rows[id].user])))
    decreases n - i
  {
    if i < n {
      var next := Visit(rows, b, owner, pending, i);
      VisitSpec(rows, b, owner, pending, i);
      ProcessOldRows(next.0, b, owner, next.1, i + 1, n);
      ProcessOldPending(next.0, b, owner, next.1, i + 1, n);
      var visited := OldRow(rows, i, b, owner);
      forall id | i + 1 <= id < n
        ensures UsersIn(rows, b, owner, i, id) ==
          (if visited then {rows[i].user} else {}) + UsersIn(next.0, b, owner, i + 1, id)
      {
        UsersInSplit(rows, b, owner, i, id);
        UsersInFrame(rows, next.0, b, owner, i + 1, id);
      }
      UsersInEmpty(rows, b, owner, i, i);
    }
  }

  /** Inserts one row per user of `us`, with ids `next`, `next + 1`, ... */
  function AddRows(rows: map<RowId, Participant>, next: nat, b: BoardId, us: seq<UserId>,
                   roles: map<UserId, Role>): (r: map<RowId, Participant>)
    requires forall u :: u in us ==> u in roles
    ensures forall id :: id in r <==> id in rows || next <= id < next + |us|
    ensures forall k :: 0 <= k < |us| ==> r[next + k] == Participant(b, us[k], roles[us[k]])
    ensures forall id :: id in rows && !(next <= id < next + |us|) ==> r[id] == rows[id]
    decreases |us|
  {
    if |us| == 0 then rows
    else
      var r := AddRows(rows[next := Participant(b, us[0], roles[us[0]])], next + 1, b, us[1..], roles);
      assert forall k :: 1 <= k < |us| ==> us[k] == us[1..][k - 1] && next + k == (next + 1) + (k - 1);
      r
  }

  /**
   The board update's reconciliation as written: the acting owner's rows are
   left out of the loop, but an entry naming the acting owner stays in the
   dictionary and so reaches the creation step.
   */
  function ReconcileAsWritten(s: Store, b: BoardId, owner: UserId, d: seq<Entry>): (r: Store)
    ensures r.boards == s.boards && r.categories == s.categories
    ensures r.goals == s.goals && r.comments == s.comments && r.nextBoard == s.nextBoard
    ensures r.nextRow >= s.nextRow
  {
    var (rows, pending) := ProcessOld(s.participants, b, owner, LastRoles(d), 0, s.nextRow);
    var creates := Keep(FirstSeen(d), pending);
    s.(participants := AddRows(rows, s.nextRow, b, creates, pending), nextRow := s.nextRow + |creates|)
  }

  /** The participant list without the entries naming `u`. */
  function Without(d: seq<Entry>, u: UserId): (r: seq<Entry>)
    ensures Users(r) == Users(d) - {u}
    ensures forall i :: 0 <= i < |r| ==> r[i] in d
    decreases |d|
  {
    if |d| == 0 then []
    else
      var p := d[..|d| - 1];
      var last := d[|d| - 1];
      var w := Without(p, u);
      assert forall i :: 0 <= i < |p| ==> p[i] == d[i];
      assert Users(d) == Users(p) + {last.user};
      if last.user == u then w
      else
        UsersSnoc(w, last);
        w + [last]
  }

  lemma UpdateThenRemove(m: map<UserId, Role>, u: UserId, v: Role)
    ensures m[u := v] - {u} == m - {u}
  {
  }

  lemma RemoveThenUpdate(m: map<UserId, Role>, u: UserId, k: UserId, v: Role)
    requires k != u
    ensures (m - {u})[k := v] == m[k := v] - {u}
  {
  }

  lemma WithoutSnoc(p: seq<Entry>, e: Entry, u: UserId)
    ensures Without(p + [e], u) == if e.user == u then Without(p, u) else Without(p, u) + [e]
  {
    assert (p + [e])[..|p|] == p;
  }

  /** Dropping a user's entries drops exactly that user from the dictionary. */
  lemma {:induction false} LastRolesWithout(d: seq<Entry>, u: UserId)
    ensures LastRoles(Without(d, u)) == LastRoles(d) - {u}
    decreases |d|
  {
    if |d| > 0 {
      var p := d[..|d| - 1];
      var last := d[|d| - 1];
      assert d == p + [last];
      LastRolesWithout(p, u);
      WithoutSnoc(p, last, u);
      LastRolesSnoc(p, last);
      var m := LastRoles(p);
      var w := Without(p, u);
      if last.user == u {
        UpdateThenRemove(m, u, last.role);
      } else {
        LastRolesSnoc(w, last);
        RemoveThenUpdate(m, u, last.user, last.role);
      }
    }
  }

  /**
   The reconciliation as intended: an entry naming the acting owner is
   ignored, so the owner is neither demoted nor given a second row.
   */
  function Reconcile(s: Store, b: BoardId, owner: UserId, d: seq<Entry>): (r: Store)
    ensures r.boards == s.boards && r.categories == s.categories
    ensures r.goals == s.goals && r.comments == s.comments && r.nextBoard == s.nextBoard
  {
    ReconcileAsWritten(s, b, owner, Without(d, owner))
  }

  /** A list that does not name `u` loses nothing when `u`'s entries are dropped. */
  lemma {:induction false} WithoutAbsent(d: seq<Entry>, u: UserId)
    requires u !in Users(d)
    ensures Without(d, u) == d
    decreases |d|
  {
    if |d| > 0 {
      var p := d[..|d| - 1];
      var last := d[|d| - 1];
      assert d == p + [last];
      UsersSnoc(p, last);
      WithoutAbsent(p, u);
      WithoutSnoc(p, last, u);
    }
  }

  /** The intended and the as-written reconciliation agree when the list does not name the acting owner. */
  lemma ReconcileAgreesWithoutOwnerEntry(s: Store, b: BoardId, owner: UserId, d: seq<Entry>)
    requires owner !in Users(d)
    ensures Reconcile(s, b, owner, d) == ReconcileAsWritten(s, b, owner, d)
  {
    WithoutAbsent(d, owner);
  }

  /** Under `Valid`, the visited users are the board's participants other than the acting owner. */
  lemma OldUsersAreParticipants(s: Store, b: BoardId, owner: UserId)
    requires Valid(s)
    ensures forall u :: u in UsersIn(s.participants, b, owner, 0, s.nextRow) <==> u != owner && IsParticipant(s, b, u)
  {
    var P := s.participants;
    forall u | u != owner && IsParticipant(s, b, u)
      ensures u in UsersIn(P, b, owner, 0, s.nextRow)
    {
      var id :| id in P && P[id].board == b && P[id].user == u;
      assert OldRow(P, id, b, owner);
    }
  }

  /** With one row per (board, user), no visited row shares its user with an earlier one. */
  lemma NoEarlierSameUser(s: Store, b: BoardId, owner: UserId)
    requires OneRowPerUser(s)
    ensures forall id :: OldRow(s.participants, id, b, owner) ==>
      s.participants[id].user !in UsersIn(s.participants, b, owner, 0, id)
  {
  }

  /** What is left of the dictionary after the loop, on a valid store. */
  lemma LoopPending(s: Store, b: BoardId, owner: UserId, d: seq<Entry>)
    requires Valid(s)
    ensures var res := ProcessOld(s.participants, b, owner, LastRoles(d), 0, s.nextRow);
      && (forall u :: u in res.1 <==> u in LastRoles(d) && (u == owner || !IsParticipant(s, b, u)))
      && (forall u :: u in res.1 ==> res.1[u] == LastRoles(d)[u])
      && (forall id :: id in res.0 ==> id in s.participants)
  {
    ProcessOldPending(s.participants, b, owner, LastRoles(d), 0, s.nextRow);
    OldUsersAreParticipants(s, b, owner);
  }

  /** The rows after the loop, on a valid store with one row per (board, user). */
  lemma LoopRows(s: Store, b: BoardId, owner: UserId, d: seq<Entry>)
    requires Valid(s) && OneRowPerUser(s)
    ensures var res := ProcessOld(s.participants, b, owner, LastRoles(d), 0, s.nextRow);
            var P := s.participants; var m := LastRoles(d);
      && (forall id :: id in P && !OldRow(P, id, b, owner) ==> id in res.0 && res.0[id] == P[id])
      && (forall id :: OldRow(P, id, b, owner) ==>
            && (id in res.0 <==> P[id].user in m)
            && (id in res.0 ==> res.0[id] == P[id].(role := m[P[id].user])))
  {
    ProcessOldRows(s.participants, b, owner, LastRoles(d), 0, s.nextRow);
    NoEarlierSameUser(s, b, owner);
  }

  /** The creation step adds one row per listed user, above every existing id. */
  lemma CreationStep(rows: map<RowId, Participant>, next: nat, b: BoardId, us: seq<UserId>,
                     roles: map<UserId, Role>)
    requires forall id :: id in rows ==> id < next
    requires Distinct(us) && forall u :: u in us ==> u in roles
    ensures var Q := AddRows(rows, next, b, us, roles);
      && (forall id :: id in Q ==> id < next + |us|)
      && (forall id :: id in Q && id !in rows ==>
            next <= id && Q[id].board == b && Q[id].user in us && Q[id].role == roles[Q[id].user])
      && (forall u :: u in us ==> exists id :: id in Q && id !in rows && Q[id].board == b && Q[id].user == u)
      && (forall i, j :: i in Q && j in Q && i !in rows && j !in rows && i != j ==> Q[i].user != Q[j].user)
  {
    var Q := AddRows(rows, next, b, us, roles);
    forall id | id in Q && id !in rows
      ensures next <= id && Q[id].board == b && Q[id].user in us && Q[id].role == roles[Q[id].user]
    {
      var k := id - next;
      assert Q[next + k] == Participant(b, us[k], roles[us[k]]);
    }
    forall u | u in us
      ensures exists id :: id in Q && id !in rows && Q[id].board == b && Q[id].user == u
    {
      var k :| 0 <= k < |us| && us[k] == u;
      assert Q[next + k].user == u;
    }
    forall i, j | i in Q && j in Q && i !in rows && j !in rows && i != j
      ensures Q[i].user != Q[j].user
    {
      assert Q[next + (i - next)].user == us[i - next];
      assert Q[next + (j - next)].user == us[j - next];
    }
  }

  /**
   Rows the loop does not visit, among them every row of the acting owner and
   every row of another board, come out unchanged; a visited row is deleted
   when its user is not submitted and otherwise carries the submitted role,
   so it is untouched when that role is already its own.
   */
  lemma ReconcileAsWrittenExisting(s: Store, b: BoardId, owner: UserId, d: seq<Entry>)
    requires Valid(s) && OneRowPerUser(s)
    ensures var Q := ReconcileAsWritten(s, b, owner, d).participants;
            var P := s.participants; var m := LastRoles(d);
      && (forall id :: id in P && !OldRow(P, id, b, owner) ==> id in Q && Q[id] == P[id])
      && (forall id :: OldRow(P, id, b, owner) ==>
            && (id in Q <==> P[id].user in m)
            && (id in Q ==> Q[id] == P[id].(role := m[P[id].user])))
  {
    LoopRows(s, b, owner, d);
  }

  /**
   The as-written reconciliation adds exactly one row, on the board and with
   the submitted role, for each submitted user who was not a participant of
   the board or is the acting owner, and no other row.
   */
  lemma ReconcileAsWrittenCreated(s: Store, b: BoardId, owner: UserId, d: seq<Entry>)
    requires Valid(s)
    ensures var r := ReconcileAsWritten(s, b, owner, d);
            var P := s.participants; var Q := r.participants; var m := LastRoles(d);
      && (forall id :: id in Q ==> id < r.nextRow)
      && (forall id :: id in Q && id !in P ==>
            && s.nextRow <= id
            && Q[id].board == b && Q[id].user in m && Q[id].role == m[Q[id].user]
            && (Q[id].user == owner || !IsParticipant(s, b, Q[id].user)))
      && (forall u :: u in m && (u == owner || !IsParticipant(s, b, u)) ==>
            exists id :: id in Q && id !in P && Q[id].board == b && Q[id].user == u)
      && (forall i, j :: i in Q && j in Q && i !in P && j !in P && i != j ==> Q[i].user != Q[j].user)
  {
    LoopPending(s, b, owner, d);
    var res := ProcessOld(s.participants, b, owner, LastRoles(d), 0, s.nextRow);
    var creates := Keep(FirstSeen(d), res.1);
    CreationStep(res.0, s.nextRow, b, creates, res.1);
  }

  /** The creation step with no owner role to hand out creates no owner row. */
  lemma AddRowsGrantsNoOwner(rows: map<RowId, Participant>, next: nat, b: BoardId, us: seq<UserId>,
                             roles: map<UserId, Role>)
    requires forall u :: u in us ==> u in roles
    requires forall u :: u in roles ==> roles[u] != Owner
    requires forall id :: id in rows ==> id < next
    ensures var Q := AddRows(rows, next, b, us, roles);
      forall id :: id in Q && Q[id].role == Owner ==> id in rows && Q[id] == rows[id]
  {
    var Q := AddRows(rows, next, b, us, roles);
    forall id | id in Q && id !in rows
      ensures Q[id].role != Owner
    {
      var k := id - next;
      assert Q[next + k].role == roles[us[k]];
    }
  }

  /** With no owner role in the dictionary, the loop leaves every owner row as it was and makes none. */
  lemma LoopGrantsNoOwner(s: Store, b: BoardId, owner: UserId, m: map<UserId, Role>)
    requires Valid(s)
    requires forall u :: u in m ==> m[u] != Owner
    ensures var res := ProcessOld(s.participants, b, owner, m, 0, s.nextRow);
      && (forall id :: id in res.0 && res.0[id].role == Owner ==>
            id in s.participants && res.0[id] == s.participants[id])
      && (forall id :: id in res.0 ==> id < s.nextRow)
      && (forall u :: u in res.1 ==> res.1[u] != Owner)
  {
    var P := s.participants;
    ProcessOldRows(P, b, owner, m, 0, s.nextRow);
    ProcessOldPending(P, b, owner, m, 0, s.nextRow);
    var res := ProcessOld(P, b, owner, m, 0, s.nextRow);
    forall id | id in res.0 && OldRow(P, id, b, owner)
      ensures res.0[id].role != Owner
    {
      assert res.0[id].role == m[P[id].user];
    }
  }

  /**
   When no entry asks for the owner role, every owner row after the
   as-written reconciliation is an owner row that existed before, unchanged;
   this holds even when the list names the acting owner, whose extra row
   carries the submitted role.
   */
  lemma ReconcileAsWrittenGrantsNoOwner(s: Store, b: BoardId, owner: UserId, d: seq<Entry>)
    requires Valid(s)
    requires forall i :: 0 <= i < |d| ==> d[i].role != Owner
    ensures var Q := ReconcileAsWritten(s, b, owner, d).participants;
      forall id :: id in Q && Q[id].role == Owner ==> id in s.participants && Q[id] == s.participants[id]
  {
    var m := LastRoles(d);
    LastRolesWithin(d, {Writer, Reader});
    LoopGrantsNoOwner(s, b, owner, m);
    var res := ProcessOld(s.participants, b, owner, m, 0, s.nextRow);
    AddRowsGrantsNoOwner(res.0, s.nextRow, b, Keep(FirstSeen(d), res.1), res.1);
  }

  /**
   The as-written reconciliation gives the acting owner a second row on the
   board whenever the submitted list names them.
   */
  lemma ReconcileAsWrittenDuplicatesOwner(s: Store, b: BoardId, owner: UserId, d: seq<Entry>)
    requires Valid(s) && OneRowPerUser(s)
    requires IsParticipant(s, b, owner) && owner in Users(d)
    ensures !OneRowPerUser(ReconcileAsWritten(s, b, owner, d))
  {
    ReconcileAsWrittenExisting(s, b, owner, d);
    ReconcileAsWrittenCreated(s, b, owner, d);
    var P := s.participants;
    var Q := ReconcileAsWritten(s, b, owner, d).participants;
    var id0 :| id0 in P && P[id0].board == b && P[id0].user == owner;
    assert !OldRow(P, id0, b, owner);
    var id1 :| id1 in Q && id1 !in P && Q[id1].board == b && Q[id1].user == owner;
    assert Q[id0].board == Q[id1].board && Q[id0].user == Q[id1].user && id0 != id1;
  }

  /** The facts the intended reconciliation inherits from the as-written one. */
  lemma ReconcileBasics(s: Store, b: BoardId, owner: UserId, d: seq<Entry>)
    requires Valid(s) && OneRowPerUser(s)
    ensures var Q := Reconcile(s, b, owner, d).participants;
            var P := s.participants; var m := LastRoles(d) - {owner};
      && (forall id :: id in P && !OldRow(P, id, b, owner) ==> id in Q && Q[id] == P[id])
      && (forall id :: OldRow(P, id, b, owner) ==>
            && (id in Q <==> P[id].user in m)
            && (id in Q ==> Q[id] == P[id].(role := m[P[id].user])))
      && (forall id :: id in Q ==> id < Reconcile(s, b, owner, d).nextRow)
      && (forall id :: id in Q && id !in P ==>
            && s.nextRow <= id
            && Q[id].board == b && Q[id].user in m && Q[id].role == m[Q[id].user]
            && !IsParticipant(s, b, Q[id].user))
      && (forall u :: u in m && !IsParticipant(s, b, u) ==>
            exists id :: id in Q && id !in P && Q[id].board == b && Q[id].user == u)
      && (forall i, j :: i in Q && j in Q && i !in P && j !in P && i != j ==> Q[i].user != Q[j].user)
  {
    LastRolesWithout(d, owner);
    ReconcileAsWrittenExisting(s, b, owner, Without(d, owner));
    ReconcileAsWrittenCreated(s, b, owner, Without(d, owner));
  }

  /**
   The intended reconciliation leaves the acting owner's rows and the rows
   of other boards as they were and adds none for them.
   */
  lemma ReconcileSparesOwner(s: Store, b: BoardId, owner: UserId, d: seq<Entry>)
    requires Valid(s) && OneRowPerUser(s)
    ensures var P := s.participants; var Q := Reconcile(s, b, owner, d).participants;
      && (forall id :: id in P && (P[id].user == owner || P[id].board != b) ==> id in Q && Q[id] == P[id])
      && (forall id :: id in Q && (Q[id].user == owner || Q[id].board != b) ==> id in P && Q[id] == P[id])
  {
    ReconcileBasics(s, b, owner, d);
  }

  /** A role held on the board after the intended reconciliation is the submitted one. */
  lemma ReconcileRoleSound(s: Store, b: BoardId, owner: UserId, d: seq<Entry>, u: UserId, role: Role)
    requires Valid(s) && OneRowPerUser(s) && u != owner
    requires HasRole(Reconcile(s, b, owner, d), b, u, {role})
    ensures u in LastRoles(d) && LastRoles(d)[u] == role
  {
    ReconcileBasics(s, b, owner, d);
    var P := s.participants;
    var Q := Reconcile(s, b, owner, d).participants;
    var id :| id in Q && Q[id].board == b && Q[id].user == u && Q[id].role in {role};
    if id in P {
      assert OldRow(P, id, b, owner);
    }
  }

  /** A submitted role is held on the board after the intended reconciliation. */
  lemma ReconcileRoleComplete(s: Store, b: BoardId, owner: UserId, d: seq<Entry>, u: UserId)
    requires Valid(s) && OneRowPerUser(s) && u != owner && u in LastRoles(d)
    ensures HasRole(Reconcile(s, b, owner, d), b, u, {LastRoles(d)[u]})
  {
    ReconcileBasics(s, b, owner, d);
    var P := s.participants;
    var Q := Reconcile(s, b, owner, d).participants;
    var m := LastRoles(d) - {owner};
    assert u in m && m[u] == LastRoles(d)[u];
    var id: RowId;
    if IsParticipant(s, b, u) {
      id :| id in P && P[id].board == b && P[id].user == u;
      assert OldRow(P, id, b, owner);
    } else {
      id :| id in Q && id !in P && Q[id].board == b && Q[id].user == u;
    }
    assert id in Q && Q[id].board == b && Q[id].user == u && Q[id].role == m[u];
  }

  /**
   After the intended reconciliation every user other than the acting owner
   holds a role on the board exactly when the list names them, and the role
   is the one of their last entry.
   */
  lemma ReconcileFinalRoles(s: Store, b: BoardId, owner: UserId, d: seq<Entry>)
    requires Valid(s) && OneRowPerUser(s)
    ensures var r := Reconcile(s, b, owner, d); var m := LastRoles(d);
      forall u, role :: u != owner ==> (HasRole(r, b, u, {role}) <==> u in m && m[u] == role)
  {
    var r := Reconcile(s, b, owner, d);
    var m := LastRoles(d);
    forall u, role | u != owner
      ensures HasRole(r, b, u, {role}) <==> u in m && m[u] == role
    {
      if HasRole(r, b, u, {role}) {
        ReconcileRoleSound(s, b, owner, d, u, role);
      }
      if u in m && m[u] == role {
        ReconcileRoleComplete(s, b, owner, d, u);
      }
    }
  }

  /** The intended reconciliation keeps the store valid with one row per (board, user). */
  lemma ReconcilePreservesInvariants(s: Store, b: BoardId, owner: UserId, d: seq<Entry>)
    requires Valid(s) && OneRowPerUser(s) && b in s.boards
    ensures Valid(Reconcile(s, b, owner, d)) && OneRowPerUser(Reconcile(s, b, owner, d))
  {
    ReconcileBasics(s, b, owner, d);
    var r := Reconcile(s, b, owner, d);
    var P := s.participants;
    var Q := r.participants;
    forall i, j | i in Q && j in Q && i != j
      ensures Q[i].board != Q[j].board || Q[i].user != Q[j].user
    {
      if i in P && j !in P && Q[i].board == b {
        assert P[i].board == b && P[i].user == Q[i].user;
        assert IsParticipant(s, b, Q[i].user);
      } else if j in P && i !in P && Q[j].board == b {
        assert P[j].board == b && P[j].user == Q[j].user;
        assert IsParticipant(s, b, Q[j].user);
      }
    }
  }

  /** A row after the intended reconciliation is an old row unchanged or carries a submitted role. */
  lemma ReconcileRowOrigin(s: Store, b: BoardId, owner: UserId, d: seq<Entry>, id: RowId)
    requires Valid(s) && OneRowPerUser(s)
    requires id in Reconcile(s, b, owner, d).participants
    ensures var Q := Reconcile(s, b, owner, d).participants;
      || (id in s.participants && Q[id] == s.participants[id])
      || (Q[id].user in LastRoles(d) && Q[id].role == LastRoles(d)[Q[id].user])
  {
    ReconcileBasics(s, b, owner, d);
    if id in s.participants && OldRow(s.participants, id, b, owner) {
      assert s.participants[id].user == Reconcile(s, b, owner, d).participants[id].user;
    }
  }

  /**
   When no entry asks for the owner role, every owner row after the intended
   reconciliation is an owner row that existed before, unchanged.
   */
  lemma ReconcileGrantsNoOwner(s: Store, b: BoardId, owner: UserId, d: seq<Entry>)
    requires Valid(s) && OneRowPerUser(s)
    requires forall i :: 0 <= i < |d| ==> d[i].role != Owner
    ensures var Q := Reconcile(s, b, owner, d).participants;
      forall id :: id in Q && Q[id].role == Owner ==> id in s.participants && Q[id] == s.participants[id]
  {
    LastRolesWithin(d, {Writer, Reader});
    var Q := Reconcile(s, b, owner, d).participants;
    forall id | id in Q && Q[id].role == Owner
      ensures id in s.participants && Q[id] == s.participants[id]
    {
      ReconcileRowOrigin(s, b, owner, d, id);
    }
  }
}

=== FILE: results.dfy ===
/** Failure-carrying return values used by the request handlers of the model. */
module Results {

  /** A value that may be absent, such as an optional request field. */
  datatype Option<+T> = None | Some(value: T)

  /** Either the handler's result or the error the framework would answer with. */
  datatype Result<+T, +E> = Ok(value: T) | Err(error: E)
}

=== FILE: validation.dfy ===
/**
 Field validators of the category and goal serializers. Each returns the
 accepted key or the error the request is rejected with.
 */
module Validation {
  import opened Models
  import opened Results

  /** Some user, whoever it is, holds an owner or writer row on board `b`. */
  predicate BoardHasEditor(s: Store, b: BoardId) {
    exists id :: id in s.participants && s.participants[id].board == b && s.participants[id].role in Editors
  }

  /**
   Category board check as written: a deleted board is rejected; for a live
   board the participant lookup goes through a manager name the model class
   does not have, so the request fails with an attribute error.
   */
  function ValidateCategoryBoardAsWritten(s: Store, u: UserId, b: BoardId): (r: Result<BoardId, Error>)
    ensures !r.Ok?
    ensures r == Err(DoesNotExist) <==> b !in s.boards
    ensures r == Err(BoardDeleted) <==> b in s.boards && s.boards[b].isDeleted
    ensures r == Err(AttributeError) <==> b in s.boards && !s.boards[b].isDeleted
  {
    if b !in s.boards then Err(DoesNotExist)
    else if s.boards[b].isDeleted then Err(BoardDeleted)
    else Err(AttributeError)
  }

  /** Category board check as intended: a live board on which the requester is owner or writer. */
  function ValidateCategoryBoard(s: Store, u: UserId, b: BoardId): (r: Result<BoardId, Error>)
    ensures r.Ok? <==> b in s.boards && !s.boards[b].isDeleted && HasRole(s, b, u, Editors)
    ensures r.Ok? ==> r.value == b
    ensures r == Err(DoesNotExist) <==> b !in s.boards
    ensures r == Err(BoardDeleted) <==> b in s.boards && s.boards[b].isDeleted
    ensures r == Err(NotOwnerOrWriter) <==> b in s.boards && !s.boards[b].isDeleted && !HasRole(s, b, u, Editors)
  {
    if b !in s.boards then Err(DoesNotExist)
    else if s.boards[b].isDeleted then Err(BoardDeleted)
    else if HasRole(s, b, u, Editors) then Ok(b)
    else Err(NotOwnerOrWriter)
  }

  /** The as-written check never accepts a board; the intended one accepts an owner's live board. */
  lemma CategoryBoardCheckNeverPasses(s: Store, u: UserId, b: BoardId)
    requires b in s.boards && !s.boards[b].isDeleted && HasRole(s, b, u, Editors)
    ensures ValidateCategoryBoardAsWritten(s, u, b) == Err(AttributeError)
    ensures ValidateCategoryBoard(s, u, b) == Ok(b)
  {
  }

  /** The category field of both goal serializers only resolves live categories. */
  predicate LiveCategory(s: Store, c: CategoryId) {
    c in s.categories && !s.categories[c].isDeleted
  }

  /**
   Goal-creation category check as written: the category must be live and
   created by the requester, and the board must have some owner or writer
   row, whoever holds it.
   */
  function ValidateGoalCategoryOnCreateAsWritten(s: Store, u: UserId, c: CategoryId): (r: Result<CategoryId, Error>)
    ensures r.Ok? <==> LiveCategory(s, c) && s.categories[c].user == u && BoardHasEditor(s, s.categories[c].board)
    ensures r.Ok? ==> r.value == c
    ensures r == Err(DoesNotExist) <==> !LiveCategory(s, c)
    ensures r == Err(PermissionDenied) <==>
      LiveCategory(s, c) && (s.categories[c].user != u || !BoardHasEditor(s, s.categories[c].board))
  {
    if !LiveCategory(s, c) then Err(DoesNotExist)
    else if u != s.categories[c].user then Err(PermissionDenied)
    else if !BoardHasEditor(s, s.categories[c].board) then Err(PermissionDenied)
    else Ok(c)
  }

  /** Goal-creation category check as intended: the requester is owner or writer of the category's board. */
  function ValidateGoalCategoryOnCreate(s: Store, u: UserId, c: CategoryId): (r: Result<CategoryId, Error>)
    ensures r.Ok? <==> LiveCategory(s, c) && s.categories[c].user == u && HasRole(s, s.categories[c].board, u, Editors)
    ensures r.Ok? ==> r.value == c
    ensures r == Err(DoesNotExist) <==> !LiveCategory(s, c)
    ensures r == Err(PermissionDenied) <==>
      LiveCategory(s, c) && (s.categories[c].user != u || !HasRole(s, s.categories[c].board, u, Editors))
  {
    if !LiveCategory(s, c) then Err(DoesNotExist)
    else if u != s.categories[c].user then Err(PermissionDenied)
    else if !HasRole(s, s.categories[c].board, u, Editors) then Err(PermissionDenied)
    else Ok(c)
  }

  /** Goal-update category check: the category must be live and created by the requester. */
  function ValidateGoalCategoryOnUpdate(s: Store, u: UserId, c: CategoryId): (r: Result<CategoryId, Error>)
    ensures r.Ok? <==> LiveCategory(s, c) && s.categories[c].user == u
    ensures r.Ok? ==> r.value == c
    ensures r == Err(DoesNotExist) <==> !LiveCategory(s, c)
    ensures r == Err(PermissionDenied) <==> LiveCategory(s, c) && s.categories[c].user != u
  {
    if !LiveCategory(s, c) then Err(DoesNotExist)
    else if u != s.categories[c].user then Err(PermissionDenied)
    else Ok(c)
  }

  /**
   Both goal checks reject whatever the update check rejects, and the
   intended create check is the as-written one narrowed to the requester.
   */
  lemma GoalCategoryChecksOrdered(s: Store, u: UserId, c: CategoryId)
    ensures ValidateGoalCategoryOnCreate(s, u, c).Ok? ==> ValidateGoalCategoryOnCreateAsWritten(s, u, c).Ok?
    ensures ValidateGoalCategoryOnCreateAsWritten(s, u, c).Ok? ==> ValidateGoalCategoryOnUpdate(s, u, c).Ok?
    ensures ValidateGoalCategoryOnCreateAsWritten(s, u, c).Ok? && HasRole(s, s.categories[c].board, u, Editors)
            ==> ValidateGoalCategoryOnCreate(s, u, c).Ok?
  {
  }

  /**
   The as-written create check accepts a requester who created the category
   but holds no row on its board, because another user is its owner.
   */
  lemma GoalCreateCheckIgnoresRequester()
    ensures var s := Store(map[0 := Board("b", false)], map[0 := Category(0, 2, false)], map[], map[],
                           map[0 := Participant(0, 1, Owner)], 1, 1);
            && !IsParticipant(s, 0, 2)
            && ValidateGoalCategoryOnCreateAsWritten(s, 2, 0) == Ok(0)
            && ValidateGoalCategoryOnCreate(s, 2, 0) == Err(PermissionDenied)
  {
    var s := Store(map[0 := Board("b", false)], map[0 := Category(0, 2, false)], map[], map[],
                   map[0 := Participant(0, 1, Owner)], 1, 1);
    assert s.participants[0].role in Editors;
    assert !HasRole(s, 0, 2, Editors) by {
      assert forall id :: id in s.participants ==> id == 0;
    }
  }
}

=== FILE: visibility.dfy ===
/**
 The querysets of the list and detail views. A detail view answers "not
 found" for any id outside the same set, so one set per entity kind covers
 both views.
 */
module Visibility {
  import opened Models
  import opened Cascade

  /**
   Boards: not deleted, and the requester has a participant row on them. The
   filter is the join it compiles to: the boards reached from the
   requester's own participant rows, kept when not deleted.
   */
  function VisibleBoards(s: Store, u: UserId): (r: set<BoardId>)
    ensures r == set id | id in s.participants && s.participants[id].user == u
                          && s.participants[id].board in s.boards && !s.boards[s.participants[id].board].isDeleted
                        :: s.participants[id].board
  {
    set b | b in s.boards && !s.boards[b].isDeleted && IsParticipant(s, b, u)
  }

  /**
   Categories: not deleted, created by the requester, on a board where the
   requester has a participant row. The board's own deleted flag is not
   consulted. As a join: the requester's live categories whose board is
   reached from one of the requester's participant rows.
   */
  function VisibleCategories(s: Store, u: UserId): (r: set<CategoryId>)
    ensures r == set c, id | c in s.categories && id in s.participants && s.participants[id].user == u
                             && s.participants[id].board == s.categories[c].board
                             && s.categories[c].user == u && !s.categories[c].isDeleted
                           :: c
  {
    set c | c in s.categories && !s.categories[c].isDeleted && s.categories[c].user == u
            && IsParticipant(s, s.categories[c].board, u)
  }

  /**
   Goals, as the filter is written: the participant condition and the status
   condition are joined with Python's `and`, which yields its second operand
   when the first is a non-empty filter object, so only "not archived" is
   applied and the requester plays no part.
   */
  function VisibleGoalsAsWritten(s: Store, u: UserId): (r: set<GoalId>)
    ensures r <= s.goals.Keys
    ensures forall g :: g in s.goals && s.goals[g].status == Archived ==> g !in r
    ensures VisibleGoals(s, u) <= r
  {
    set g | g in s.goals && s.goals[g].status != Archived
  }

  /**
   Goals, as the filter evidently intends: not archived and on a board the
   requester participates in. As a join: non-archived goals whose category's
   board is reached from one of the requester's participant rows.
   */
  function VisibleGoals(s: Store, u: UserId): (r: set<GoalId>)
    ensures r == set g, id | g in s.goals && s.goals[g].status != Archived && s.goals[g].category in s.categories
                             && id in s.participants && s.participants[id].user == u
                             && s.participants[id].board == s.categories[s.goals[g].category].board
                           :: g
  {
    set g | g in s.goals && s.goals[g].status != Archived && s.goals[g].category in s.categories
            && IsParticipant(s, s.categories[s.goals[g].category].board, u)
  }

  /**
   Comments: on a goal in a category of a board where the requester has a
   participant row. As a join: comments whose goal's category's board is
   reached from one of the requester's participant rows.
   */
  function VisibleComments(s: Store, u: UserId): (r: set<CommentId>)
    ensures r == set k, id | k in s.comments && s.comments[k].goal in s.goals
                             && s.goals[s.comments[k].goal].category in s.categories
                             && id in s.participants && s.participants[id].user == u
                             && s.participants[id].board == s.categories[s.goals[s.comments[k].goal].category].board
                           :: k
  {
    set k | k in s.comments && s.comments[k].goal in s.goals
            && s.goals[s.comments[k].goal].category in s.categories
            && IsParticipant(s, s.categories[s.goals[s.comments[k].goal].category].board, u)
  }

  /** The as-written goal filter returns the same goals to every requester. */
  lemma GoalFilterIgnoresRequester(s: Store, u: UserId, v: UserId)
    ensures VisibleGoalsAsWritten(s, u) == VisibleGoalsAsWritten(s, v)
  {
  }

  /**
   The as-written goal filter shows a goal to a user who has no row on its
   board; the intended filter does not.
   */
  lemma GoalFilterLeaksToOutsider()
    ensures var s := Store(map[0 := Board("b", false)], map[0 := Category(0, 1, false)],
                           map[0 := Goal(0, 1, ToDo)], map[],
                           map[0 := Participant(0, 1, Owner)], 1, 1);
            && !IsParticipant(s, 0, 2)
            && 0 in VisibleGoalsAsWritten(s, 2)
            && 0 !in VisibleGoals(s, 2)
  {
    var s := Store(map[0 := Board("b", false)], map[0 := Category(0, 1, false)],
                   map[0 := Goal(0, 1, ToDo)], map[],
                   map[0 := Participant(0, 1, Owner)], 1, 1);
    assert s.participants[0].user != 2;
  }

  /** The intended goal filter keeps exactly the as-written goals on the requester's boards. */
  lemma VisibleGoalsRefinesAsWritten(s: Store, u: UserId)
    ensures VisibleGoals(s, u) <= VisibleGoalsAsWritten(s, u)
    ensures forall g :: g in VisibleGoalsAsWritten(s, u) && s.goals[g].category in s.categories
                        && IsParticipant(s, s.categories[s.goals[g].category].board, u)
                        ==> g in VisibleGoals(s, u)
  {
  }

  /**
   After a board destroy nobody sees the board, its categories or its goals,
   and the visibility of every other board is unchanged.
   */
  lemma DestroyBoardHides(s: Store, b: BoardId, u: UserId)
    requires b in s.boards
    ensures var r := DestroyBoard(s, b);
      && b !in VisibleBoards(r, u)
      && (forall x :: x != b ==> (x in VisibleBoards(r, u) <==> x in VisibleBoards(s, u)))
      && (forall c :: c in VisibleCategories(r, u) ==> r.categories[c].board != b)
      && (forall g :: g in VisibleGoalsAsWritten(r, u) ==> !GoalOnBoard(r, g, b))
      && VisibleGoals(r, u) <= VisibleGoalsAsWritten(r, u)
  {
    var r := DestroyBoard(s, b);
    assert forall x :: IsParticipant(r, x, u) <==> IsParticipant(s, x, u);
    forall g | g in VisibleGoalsAsWritten(r, u)
      ensures !GoalOnBoard(r, g, b)
    {
      assert GoalOnBoard(r, g, b) <==> GoalOnBoard(s, g, b);
    }
  }

  /**
   After a category destroy nobody sees the category or any goal in it; other
   categories keep their visibility.
   */
  lemma DestroyCategoryHides(s: Store, c: CategoryId, u: UserId)
    requires c in s.categories
    ensures var r := DestroyCategory(s, c);
      && c !in VisibleCategories(r, u)
      && (forall x :: x != c ==> (x in VisibleCategories(r, u) <==> x in VisibleCategories(s, u)))
      && (forall g :: g in VisibleGoalsAsWritten(r, u) ==> r.goals[g].category != c)
      && VisibleGoals(r, u) <= VisibleGoalsAsWritten(r, u)
  {
    var r := DestroyCategory(s, c);
    assert forall x :: IsParticipant(r, x, u) <==> IsParticipant(s, x, u);
  }

  /** After a goal destroy the goal is hidden and every other goal keeps its visibility. */
  lemma DestroyGoalHides(s: Store, g: GoalId, u: UserId)
    requires g in s.goals
    ensures var r := DestroyGoal(s, g);
      && g !in VisibleGoalsAsWritten(r, u) && g !in VisibleGoals(r, u)
      && (forall x :: x != g ==> (x in VisibleGoalsAsWritten(r, u) <==> x in VisibleGoalsAsWritten(s, u)))
      && (forall x :: x != g ==> (x in VisibleGoals(r, u) <==> x in VisibleGoals(s, u)))
  {
  }
}
